=== FILE: README.md ===
# Bottom sheet drag-to-snap controller, in Dafny

This project models the position controller of a draggable bottom sheet, a
panel that slides up from the bottom of the screen and rests at one of three
snap points: CLOSED (0.05), HALF (0.5) and FULL (1). Positions, pointer
coordinates and the viewport height are Dafny `real`s, so all arithmetic is
exact.

- `SnapPoints` (`snap_points.dfy`) holds the snap points and
  `findNearestSnapPoint`, modelled as the left fold that `Array.reduce` performs
  (ties go to the earlier entry). It also holds `findIndex` and the sheet's
  index-based stepper `handleSnapPoint`.
- `Controller` (`controller.dfy`) is the drag state machine of
  `BottomSheet.tsx`. The state is the position plus a session, `Idle` or
  `Dragging(startY, base)`. Its pieces are `handleStart`, `handleMove`,
  `handleEnd`, the direct jumps (close button, Escape, open key), the stepper
  applied to the sheet, and `handleBackdropClick` as a pure function.
- `Swipe` (`swipe.dfy`) models `BottomSwipe.tsx` at the level of its own
  React state and refs, stale values included. It proves that each of its
  handlers, seen through an abstraction function, is exactly the
  controller's handler.
- `Keyboard` (`keyboard.dfy`) is `useKeyboardNavigation`. It is a pure map
  from bindings (optional callbacks plus the optional `enabled` flag) and a
  key to the callback fired and whether the default action is cancelled.
- `App` (`app.dfy`) is the demo page: the initial position, the up/down
  buttons, the page's "open" hook, and the combined effect of both keyboard
  hooks. It also runs arbitrary event sequences, where each move carries the viewport height of that moment, and proves that every
  reachable state keeps the position in [0, 1] and rests on a snap point
  whenever no drag is in progress.
- `Wrappers` (`wrappers.dfy`) holds `Option`.

## Model

| member | source | states |
|---|---|---|
| SnapPoints.PointsAscending | src/components/BottomSheet.tsx:54 | the snap points are distinct and ascending, so the numeric sort in the stepper leaves them in declaration order; they are exactly CLOSED, HALF and FULL |
| SnapPoints.ReduceNearest | src/components/BottomSheet.tsx:36-39 | the reduce returns an element of the list that no element is strictly closer to, and every earlier element is strictly farther (first-in-order tie break) |
| SnapPoints.Nearest | src/components/BottomSheet.tsx:35-41 | `findNearestSnapPoint` returns one of 0.05, 0.5, 1, and no snap point is strictly closer to the input |
| SnapPoints.NearestClosedForm | src/components/BottomSheet.tsx:35-41 | nearest is CLOSED iff p <= 0.275, HALF iff 0.275 < p <= 0.75, FULL iff p > 0.75; the midpoints go to the earlier entry |
| SnapPoints.NearestFixesSnapPoints | src/components/BottomSheet.tsx:35-41 | a snap point is its own nearest snap point |
| SnapPoints.FindIndex | src/components/BottomSheet.tsx:55-57 | `findIndex` gives -1 exactly when the value is absent, and otherwise the first index holding it |
| SnapPoints.Step | src/components/BottomSheet.tsx:53-64 | from a snap point the stepper yields a snap point; up never lowers it and down never raises any position; off the snap points "up" yields CLOSED (index -1 + 1) and "down" is a no-op |
| SnapPoints.StepFromSnapPoint | src/components/BottomSheet.tsx:59-63 | from the snap point at index i, up goes to i + 1 and down to i - 1, staying put at FULL and at CLOSED: no skipping, no wrapping |
| Controller.Live | src/components/BottomSheet.tsx:85-89 | the live position is base - (y - startY)/H clamped to [0, 1]: 0 below, 1 above, unchanged in between (lower bound 0, not CLOSED) |
| Controller.LiveMonotone | src/components/BottomSheet.tsx:85-89 | a pointer farther down never gives a higher live position |
| Controller.Start | src/components/BottomSheet.tsx:73-79 | a start always opens a session at y whose base is the current position, and does not move the sheet |
| Controller.Move | src/components/BottomSheet.tsx:81-93 | a move while idle changes nothing; while dragging it keeps the session and writes exactly `Live(base, startY, y, H)`, the clamp of base - (y - startY)/H to [0, 1] with lower bound 0, not CLOSED |
| Controller.End | src/components/BottomSheet.tsx:99-115 | an end while idle changes nothing; otherwise it ends the session and commits the nearest snap point to the live position, with ties to the earlier entry: CLOSED iff p <= 0.275, FULL iff p > 0.75, HALF otherwise |
| Controller.JumpTo | src/components/BottomSheet.tsx:45 | `setPosition` from the close button, Escape and the open key: the position becomes the target and the drag session is untouched |
| Controller.StepSheet | src/components/BottomSheet.tsx:46-47 | the arrow-key step keeps the session, keeps the position in [0, 1] and keeps an idle sheet on a snap point |
| Controller.Settle | src/components/BottomSheet.tsx:67-71 | the backdrop handler writes the nearest snap point (CLOSED iff p <= 0.275, FULL iff p > 0.75, HALF otherwise) and leaves the session alone |
| Controller.SettleIdempotent | src/components/BottomSheet.tsx:67-71 | settling twice equals settling once, and an idle sheet resting on a snap point does not move |
| Controller.HandlersPreserveInvariant | src/components/BottomSheet.tsx:73-115 | start, move, end, step and settle all keep the position in [0, 1] and an idle sheet on a snap point |
| Controller.IdleHandlersAreNoOps | src/components/BottomSheet.tsx:81-100 | moves and ends that arrive while idle are no-ops |
| Controller.EndIdempotent | src/components/BottomSheet.tsx:99-115 | a second consecutive end changes nothing |
| Controller.MoveForgetsHistory | src/components/BottomSheet.tsx:76-89 | the live position depends only on what the start recorded: a move after a move equals the last move alone |
| Controller.MoveMonotone | src/components/BottomSheet.tsx:85-89 | within a drag, a pointer farther down never yields a higher position |
| Controller.RestartOverwrites | src/components/BottomSheet.tsx:73-79 | a second start discards the first session |
| Controller.TapKeepsSnapPosition | src/components/BottomSheet.tsx:73-115 | from a resting snap point, start then end, or start, move back to the start y, then end, returns the same state |
| Swipe.Mount | src/components/BottomSwipe.tsx:16-20 | a fresh component is not dragging and shows the host's position |
| Swipe.HandleStart | src/components/BottomSwipe.tsx:28-33 | start sets the flag, records y in both coordinate refs and copies the position as base, without checking for an active drag |
| Swipe.HandleMove | src/components/BottomSwipe.tsx:39-51 | a move while not dragging changes nothing; while dragging it records y and writes exactly the clamp of dragPosition - (y - startY)/H to [0, 1], leaving flag, base and start y alone |
| Swipe.HandleEnd | src/components/BottomSwipe.tsx:60-75 | an end while not dragging changes nothing; otherwise the flag is cleared and the position is the nearest snap point, ties to the earlier entry (CLOSED iff p <= 0.275, FULL iff p > 0.75) |
| Swipe.MountIsIdle | src/components/BottomSwipe.tsx:14-20 | a freshly mounted component is an idle controller at the host's position |
| Swipe.HandlersRefineController | src/components/BottomSwipe.tsx:28-75 | each BottomSwipe handler, read through the abstraction, is the BottomSheet handler of the controller |
| Swipe.MoveMonotone | src/components/BottomSwipe.tsx:43-47 | moving the pointer farther down never gives a higher position |
| Swipe.StartEndKeepsSnapPosition | src/components/BottomSwipe.tsx:28-75 | start followed by end from a snap position leaves the position unchanged and the component not dragging |
| Keyboard.Enabled | src/hooks/useKeyboardNavigation.ts:16 | `enabled` defaults to true and otherwise is the value given |
| Keyboard.Dispatch | src/hooks/useKeyboardNavigation.ts:18-39 | when disabled, or for any other key, nothing fires and nothing is cancelled; only the arrows and "O" cancel the default action, Escape does not |
| Keyboard.EachKeyFiresOnlyItsOwnCallback | src/hooks/useKeyboardNavigation.ts:22-38 | while enabled, each bound key fires exactly its own callback, and nothing when that callback is absent |
| Keyboard.OnlyUpperCaseOOpens | src/hooks/useKeyboardNavigation.ts:34-38 | lower-case "o" does nothing |
| Keyboard.EnabledByDefault | src/hooks/useKeyboardNavigation.ts:16-19 | omitting `enabled` behaves as passing true |
| App.Initial | src/App.tsx:14 | the page starts at exactly CLOSED with no drag in progress, a state that satisfies the invariant |
| App.UpButton | src/App.tsx:22-28 | on snap points the up button agrees with the sheet's stepper (CLOSED to HALF, HALF to FULL, FULL stays); elsewhere it is a no-op; it never lowers the position |
| App.DownButton | src/App.tsx:30-36 | the down button agrees with the sheet's stepper on every position, yields snap points from snap points and never raises the position |
| App.ButtonsRoundTrip | src/App.tsx:22-36 | up then down returns CLOSED and HALF; down then up returns HALF and FULL |
| App.UpButtonDiffersFromStepOffSnapPoints | src/App.tsx:22-28 | off the snap points the page's up button leaves the position while the sheet's stepper sets CLOSED |
| App.SheetBindings | src/components/BottomSheet.tsx:44-50 | the sheet's hook is enabled exactly while the position is above CLOSED; then Escape asks to close and the arrows to step; it never fires anything on "O" |
| App.PageBindings | src/App.tsx:16-20 | the page's hook is enabled exactly at CLOSED, and then only "O" fires anything, asking to open |
| App.HooksExclusive | src/App.tsx:16-20 | the page's open hook and the sheet's hook are never enabled together; on [CLOSED, 1] exactly one is |
| App.KeyPress | src/components/BottomSheet.tsx:44-50 | Escape closes and the arrows step only while above CLOSED; "O" sets FULL only at exactly CLOSED; every other key or situation leaves the state unchanged |
| App.CloseButtonAndEscapeClose | src/components/BottomSheet.tsx:164 | the close button sets CLOSED from any state, and Escape does so whenever the sheet is above CLOSED; the drag session is kept |
| App.KeyCancelsDefault | src/hooks/useKeyboardNavigation.ts:26-37 | on the page, the arrows and "O" cancel the default action exactly when the position is at least CLOSED |
| App.Apply | src/App.tsx:22-36 | each page event reaches its handler: a press is `Start`, a move is `Move` with that move's viewport height, a release is `End`, a key goes through both keyboard hooks (`KeyPress`), the up and down buttons write `UpButton` and `DownButton` of the position, and the close button sets CLOSED; only pointer press and release touch the session |
| App.RunPreservesInvariant | src/components/BottomSheet.tsx:73-115 | any sequence of pointer, key and button events keeps the position in [0, 1] and idle sheets on snap points |
| App.ReachableSheetsAreValid | src/App.tsx:14-36 | from the initial page, every reachable position lies in [0, 1], and after a pointer release the sheet rests on a snap point |
| App.RunAppend | src/App.tsx:14-36 | helper for `App.ReachableSheetsAreValid`, not a model of these lines: a run extended by one event is that event applied to the run |
| App.DragScenario | src/components/BottomSheet.tsx:73-115 | dragging from CLOSED at y 300 to y 100 with height 1000 shows 0.25, and releasing snaps back to CLOSED |
| App.EscapeThenOpenScenario | src/App.tsx:16-20 | from FULL, Escape gives CLOSED and the open key then gives FULL again |

## Left out

- React scheduling is abstracted away. This covers `useState`/`useRef`/`useEffect` timing, stale closures, batching, and the window listener add/remove lifecycle. The model reads as "move and end handlers act only while a drag is in progress", and `position` and `positionRef` are one field.
- When several keyboard listeners are registered, the order in which they run is not modelled. `App.HooksExclusive` shows that at most one hook is enabled at a time, so the order cannot change the outcome.
- Touch versus mouse coordinate extraction is not modelled, nor is the `preventDefault` call inside `handleMove`. The viewport height `window.innerHeight` is read afresh on every move, so each `PointerMove` event carries its own height, required to be positive.
- IEEE-754 rounding is not modelled: arithmetic is exact over reals.
- `console.log` and `console.clear` in `BottomSwipe.tsx` are debug output.
- The controller's session does not keep `currentYRef`. Both files write it and neither reads it. `Swipe.Refs` keeps it, and the refinement lemmas show that it plays no part.
- The backdrop's `onClick` (`src/components/BottomSheet.tsx:140`) returns `handleBackdropClick` without calling it, so a click on the backdrop does nothing. This wiring is not modelled. `Controller.Settle` models the handler itself. `Controller.SettleIdempotent` together with the invariant shows that a wired handler would also leave an idle sheet unchanged.
- The sort inside `handleSnapPoint` is not modelled as a sorting algorithm. `SnapPoints.PointsAscending` proves that the list is already ascending, so sorting it leaves it unchanged.
- Presentation is left out: markup, styling, the translateY offset, the backdrop opacity, icons, tooltips and `TestComponent.tsx`.
- Stepping from a position that is not a snap point follows the code: the sheet's "up" sets CLOSED and its "down" does nothing (`src/components/BottomSheet.tsx:55-63`), while the page's buttons do nothing in either direction (`src/App.tsx:22-36`).

=== FILE: app.dfy ===
/**
 The demo page: it owns the sheet position, starts it CLOSED, offers up and
 down buttons, and registers its own keyboard hook whose only binding is the
 "open" key. The sheet registers a second hook for Escape and the arrows.
 */
module App {
  import opened Wrappers
  import opened SnapPoints
  import opened Controller
  import opened Keyboard

  /** The page's initial state: CLOSED, no drag in progress. */
  function Initial(): (s: Sheet)
    ensures s == Sheet(CLOSED, Idle)
    ensures Valid(s) && Settled(s)
  {
    Sheet(CLOSED, Idle)
  }

  /** `handleUpArrow`: an explicit case split over the snap points. From a
      snap point it agrees with the sheet's stepper; anywhere else it does
      nothing, where the stepper would jump to CLOSED. */
  function UpButton(p: real): (r: real)
    ensures IsSnapPoint(p) ==> r == Step(p, Up)
    ensures !IsSnapPoint(p) ==> r == p
    ensures p <= r
  {
    if p == CLOSED then HALF
    else if p == HALF then FULL
    else p
  }

  /** `handleDownArrow`: agrees with the sheet's stepper on every position. */
  function DownButton(p: real): (r: real)
    ensures r == Step(p, Down)
    ensures IsSnapPoint(p) ==> IsSnapPoint(r)
    ensures r <= p
  {
    if p == FULL then HALF
    else if p == HALF then CLOSED
    else p
  }

  /** Up then down returns CLOSED and HALF to themselves; down then up
      returns HALF and FULL to themselves. */
  lemma ButtonsRoundTrip(p: real)
    ensures p == CLOSED || p == HALF ==> DownButton(UpButton(p)) == p
    ensures p == HALF || p == FULL ==> UpButton(DownButton(p)) == p
  {
  }

  /** Off the snap points the page's up button and the sheet's stepper part
      ways: one leaves the position, the other closes the sheet. */
  lemma UpButtonDiffersFromStepOffSnapPoints(p: real)
    requires !IsSnapPoint(p)
    ensures UpButton(p) == p && Step(p, Up) == CLOSED && UpButton(p) != Step(p, Up)
  {
  }

  /** What a keyboard callback asks for. */
  datatype Command = Close | StepUp | StepDown | Open

  /** The sheet's hook: Escape closes, the arrows step, and only while the
      sheet is above CLOSED. */
  function SheetBindings(p: real): (b: Bindings<Command>)
    ensures Enabled(b) <==> p > CLOSED
    ensures forall key :: Dispatch(b, key).fired.Some? ==> p > CLOSED
    ensures p > CLOSED ==> Dispatch(b, "Escape").fired == Some(Close)
    ensures p > CLOSED ==> Dispatch(b, "ArrowUp").fired == Some(StepUp)
    ensures p > CLOSED ==> Dispatch(b, "ArrowDown").fired == Some(StepDown)
    ensures Dispatch(b, "O").fired == None
  {
    Bindings(Some(Close), Some(StepUp), Some(StepDown), None, Some(p > CLOSED))
  }

  /** The page's hook: the open key sets FULL, only while exactly CLOSED. */
  function PageBindings(p: real): (b: Bindings<Command>)
    ensures Enabled(b) <==> p == CLOSED
    ensures forall key :: Dispatch(b, key).fired.Some? ==> key == "O" && p == CLOSED
    ensures p == CLOSED ==> Dispatch(b, "O").fired == Some(Open)
  {
    Bindings(None, None, None, Some(Open), Some(p == CLOSED))
  }

  /** The two hooks are never enabled together, and on [CLOSED, 1] exactly
      one of them is. Below CLOSED (reachable only mid-drag) neither is. */
  lemma HooksExclusive(p: real)
    ensures !(Enabled(SheetBindings(p)) && Enabled(PageBindings(p)))
    ensures CLOSED <= p ==> Enabled(SheetBindings(p)) || Enabled(PageBindings(p))
    ensures p < CLOSED ==> !Enabled(SheetBindings(p)) && !Enabled(PageBindings(p))
  {
  }

  function Perform(s: Sheet, c: Command): Sheet {
    match c
    case Close => JumpTo(s, CLOSED)
    case StepUp => StepSheet(s, Up)
    case StepDown => StepSheet(s, Down)
    case Open => JumpTo(s, FULL)
  }

  function Fire(s: Sheet, c: Option<Command>): Sheet {
    match c
    case None => s
    case Some(cmd) => Perform(s, cmd)
  }

  /**
   One key-down on the page: both listeners see the event, each enabled by
   the position of the last render. At most one of them is enabled, so the
   order in which they run does not matter.
   */
  function KeyPress(s: Sheet, key: string): (r: Sheet)
    ensures r.session == s.session
    ensures key == "Escape" && s.position > CLOSED ==> r.position == CLOSED
    ensures key == "ArrowUp" && s.position > CLOSED ==> r.position == Step(s.position, Up)
    ensures key == "ArrowDown" && s.position > CLOSED ==> r.position == Step(s.position, Down)
    ensures key == "O" && s.position == CLOSED ==> r.position == FULL
    ensures !IsBoundKey(key) || s.position < CLOSED ==> r == s
    ensures key == "O" && s.position != CLOSED ==> r == s
    ensures key != "O" && s.position <= CLOSED ==> r == s
  {
    var sheetFx := Dispatch(SheetBindings(s.position), key);
    var pageFx := Dispatch(PageBindings(s.position), key);
    Fire(Fire(s, sheetFx.fired), pageFx.fired)
  }

  /** The sheet's close button always closes; Escape closes while the sheet
      is above CLOSED. Neither touches the drag session. */
  lemma CloseButtonAndEscapeClose(s: Sheet)
    ensures Apply(s, CloseButton) == Sheet(CLOSED, s.session)
    ensures s.position > CLOSED ==> KeyPress(s, "Escape") == Sheet(CLOSED, s.session)
  {
  }

  /** Whether the browser's default action for the key is cancelled. */
  function KeyCancelsDefault(p: real, key: string): (b: bool)
    ensures b <==> CLOSED <= p && (key == "ArrowUp" || key == "ArrowDown" || key == "O")
  {
    Dispatch(SheetBindings(p), key).preventDefault || Dispatch(PageBindings(p), key).preventDefault
  }

  /** Everything that can happen to the page. A move carries the viewport
      height read at that moment, so the height may change during a drag. */
  datatype Event =
    | PointerDown(y: real)
    | PointerMove(y: real, height: real)
    | PointerUp
    | KeyDown(key: string)
    | CloseButton
    | UpButtonClick
    | DownButtonClick

  /** A rendered viewport has a positive height. */
  predicate WellFormed(e: Event) {
    e.PointerMove? ==> e.height > 0.0
  }

  predicate AllWellFormed(events: seq<Event>) {
    forall i :: 0 <= i < |events| ==> WellFormed(events[i])
  }

  /** Routes one page event to its handler: pointer events to the drag
      controller, keys to both keyboard hooks, the sheet's close button and
      the page's buttons to a direct position change. */
  function Apply(s: Sheet, e: Event): (r: Sheet)
    requires WellFormed(e)
    ensures e.PointerDown? ==> r == Sheet(s.position, Dragging(e.y, s.position))
    ensures e.PointerMove? && s.session.Idle? ==> r == s
    ensures e.PointerMove? && s.session.Dragging? ==> 0.0 <= r.position <= 1.0
    ensures e.PointerUp? ==> r.session.Idle?
    ensures e.PointerUp? && s.session.Dragging? ==> IsSnapPoint(r.position)
    ensures !e.PointerDown? && !e.PointerUp? ==> r.session == s.session
    ensures e.CloseButton? ==> r.position == CLOSED
    ensures e.UpButtonClick? ==> s.position <= r.position
    ensures e.DownButtonClick? ==> r.position <= s.position
    ensures (e.UpButtonClick? || e.DownButtonClick?) && IsSnapPoint(s.position) ==> IsSnapPoint(r.position)
    ensures e.PointerMove? ==> r == Move(s, e.y, e.height)
    ensures e.PointerUp? ==> r == End(s)
    ensures e.KeyDown? ==> r == KeyPress(s, e.key)
    ensures e.UpButtonClick? ==> r == Sheet(UpButton(s.position), s.session)
    ensures e.DownButtonClick? ==> r == Sheet(DownButton(s.position), s.session)
  {
    match e
    case PointerDown(y) => Start(s, y)
    case PointerMove(y, h) => Move(s, y, h)
    case PointerUp => End(s)
    case KeyDown(key) => KeyPress(s, key)
    case CloseButton => JumpTo(s, CLOSED)
    case UpButtonClick => JumpTo(s, UpButton(s.position))
    case DownButtonClick => JumpTo(s, DownButton(s.position))
  }

  /** The page after a sequence of events, in arrival order. */
  function Run(s: Sheet, events: seq<Event>): Sheet
    requires AllWellFormed(events)
    decreases |events|
  {
    if |events| == 0 then s
    else
      Run(Apply(s, events[0]), events[1..])
  }

  /** A single event keeps the position in [0, 1] and idle sheets on a snap
      point. */
  lemma ApplyPreservesInvariant(s: Sheet, e: Event)
    requires WellFormed(e)
    requires Valid(s) && Settled(s)
    ensures Valid(Apply(s, e)) && Settled(Apply(s, e))
  {
  }

  /** Any sequence of events keeps the invariant. */
  lemma {:induction false} RunPreservesInvariant(s: Sheet, events: seq<Event>)
    requires AllWellFormed(events)
    requires Valid(s) && Settled(s)
    ensures Valid(Run(s, events)) && Settled(Run(s, events))
    decreases |events|
  {
    if |events| > 0 {
      ApplyPreservesInvariant(s, events[0]);
      RunPreservesInvariant(Apply(s, events[0]), events[1..]);
    }
  }

  /** From the initial page, whatever happens: the position never leaves
      [0, 1], and once the pointer is released it rests on a snap point. */
  lemma ReachableSheetsAreValid(events: seq<Event>)
    requires AllWellFormed(events)
    ensures 0.0 <= Run(Initial(), events).position <= 1.0
    ensures Run(Initial(), events).session.Idle? ==> IsSnapPoint(Run(Initial(), events).position)
    ensures AllWellFormed(events + [PointerUp])
    ensures IsSnapPoint(Run(Initial(), events + [PointerUp]).position)
  {
    assert forall i :: 0 <= i < |events| ==> (events + [PointerUp])[i] == events[i];
    assert (events + [PointerUp])[|events|] == PointerUp;
    RunPreservesInvariant(Initial(), events);
    RunPreservesInvariant(Initial(), events + [PointerUp]);
    RunAppend(Initial(), events, PointerUp);
  }

  /** Helper for `ReachableSheetsAreValid`: a run extended by one event is
      that event applied to the run. */
  lemma {:induction false} RunAppend(s: Sheet, events: seq<Event>, e: Event)
    requires AllWellFormed(events) && WellFormed(e)
    ensures AllWellFormed(events + [e])
    ensures Run(s, events + [e]) == Apply(Run(s, events), e)
    decreases |events|
  {
    assert forall i :: 0 <= i < |events| ==> (events + [e])[i] == events[i];
    assert (events + [e])[|events|] == e;
    if |events| > 0 {
      assert (events + [e])[1..] == events[1..] + [e];
      RunAppend(Apply(s, events[0]), events[1..], e);
    } else {
      assert events + [e] == [e];
    }
  }

  /** A drag from CLOSED at y = 300 to y = 100 in a 1000-high viewport shows
      0.25, and releasing it snaps back to CLOSED. */
  lemma DragScenario()
    ensures Run(Initial(), [PointerDown(300.0), PointerMove(100.0, 1000.0)]).position == 0.25
    ensures Run(Initial(), [PointerDown(300.0), PointerMove(100.0, 1000.0), PointerUp]) == Initial()
  {
    var s1 := Apply(Initial(), PointerDown(300.0));
    var s2 := Apply(s1, PointerMove(100.0, 1000.0));
    assert s2.position == 0.25;
    NearestClosedForm(0.25);
    assert [PointerDown(300.0), PointerMove(100.0, 1000.0)][1..] == [PointerMove(100.0, 1000.0)];
    assert [PointerDown(300.0), PointerMove(100.0, 1000.0), PointerUp][1..] == [PointerMove(100.0, 1000.0), PointerUp];
    assert [PointerMove(100.0, 1000.0), PointerUp][1..] == [PointerUp];
  }

  /** From FULL, Escape closes the sheet and the open key reopens it. */
  lemma EscapeThenOpenScenario()
    ensures KeyPress(Sheet(FULL, Idle), "Escape") == Sheet(CLOSED, Idle)
    ensures KeyPress(KeyPress(Sheet(FULL, Idle), "Escape"), "O") == Sheet(FULL, Idle)
  {
  }
}

=== FILE: controller.dfy ===
/**
 The drag-to-snap position controller of the bottom sheet. The state is the
 committed position together with the drag session: `Idle`, or `Dragging`
 with the pointer coordinate and the position recorded when the drag began.
 Pointer coordinates and the viewport height are exact reals.
 */
module Controller {
  import opened SnapPoints

  datatype Session = Idle | Dragging(startY: real, base: real)

  datatype Sheet = Sheet(position: real, session: Session)

  /** Positions stay in [0, 1], and so does the base of a live drag. */
  predicate Valid(s: Sheet) {
    && 0.0 <= s.position <= 1.0
    && (s.session.Dragging? ==> 0.0 <= s.session.base <= 1.0)
  }

  /** Outside a drag the sheet rests on a snap point. */
  predicate Settled(s: Sheet) {
    s.session.Idle? ==> IsSnapPoint(s.position)
  }

  function Min(a: real, b: real): real {
    if a < b then a else b
  }

  function Max(a: real, b: real): real {
    if a < b then b else a
  }

  /**
   `Math.max(0, Math.min(1, base - (y - startY) / h))`: the base position
   moved by the pointer travel as a fraction of the viewport height (down
   closes, up opens), clamped to [0, 1]. The lower bound is 0, not CLOSED.
   */
  function Live(base: real, startY: real, y: real, h: real): (p: real)
    requires h > 0.0
    ensures 0.0 <= p <= 1.0
    ensures base - (y - startY) / h <= 0.0 ==> p == 0.0
    ensures base - (y - startY) / h >= 1.0 ==> p == 1.0
    ensures 0.0 <= base - (y - startY) / h <= 1.0 ==> p == base - (y - startY) / h
  {
    Max(0.0, Min(1.0, base - (y - startY) / h))
  }

  /** Moving the pointer farther down never opens the sheet further. */
  lemma LiveMonotone(base: real, startY: real, y1: real, y2: real, h: real)
    requires h > 0.0
    requires y1 <= y2
    ensures Live(base, startY, y2, h) <= Live(base, startY, y1, h)
  {
    assert (y2 - startY) / h - (y1 - startY) / h == (y2 - y1) / h;
    assert (y2 - y1) / h >= 0.0;
  }

  /** `handleStart`: begin a session at `y`, based on the current position.
      A session already in progress is discarded. */
  function Start(s: Sheet, y: real): (r: Sheet)
    ensures r.position == s.position
    ensures r.session.Dragging? && r.session.startY == y && r.session.base == s.position
  {
    Sheet(s.position, Dragging(y, s.position))
  }

  /** `handleMove`: ignored while idle; while dragging, the position tracks
      the pointer and the session is left as it was. */
  function Move(s: Sheet, y: real, h: real): (r: Sheet)
    requires h > 0.0
    ensures s.session.Idle? ==> r == s
    ensures r.session == s.session
    ensures s.session.Dragging? ==> 0.0 <= r.position <= 1.0
    ensures s.session.Dragging? ==> r.position == Live(s.session.base, s.session.startY, y, h)
  {
    match s.session
    case Idle => s
    case Dragging(startY, base) => Sheet(Live(base, startY, y, h), s.session)
  }

  /** `handleEnd`: ignored while idle; otherwise commit the snap point
      nearest to the live position and end the session. */
  function End(s: Sheet): (r: Sheet)
    ensures s.session.Idle? ==> r == s
    ensures r.session.Idle?
    ensures IsSnapPoint(r.position)
            || (s.session.Idle? && r.position == s.position)
    ensures s.session.Dragging? ==>
              forall q :: IsSnapPoint(q) ==> Dist(r.position, s.position) <= Dist(q, s.position)
    ensures s.session.Dragging? ==> r.position == Nearest(s.position)
    ensures s.session.Dragging? ==>
              && (r.position == CLOSED <==> s.position <= 0.275)
              && (r.position == FULL <==> 0.75 < s.position)
  {
    NearestClosedForm(s.position);
    match s.session
    case Idle => s
    case Dragging(_, _) => Sheet(Nearest(s.position), Idle)
  }

  /** Close button, Escape and the open intent: set the position directly;
      the drag session is untouched. */
  function JumpTo(s: Sheet, target: real): (r: Sheet)
    ensures r.position == target && r.session == s.session
  {
    s.(position := target)
  }

  /** `handleSnapPoint` applied to the sheet. */
  function StepSheet(s: Sheet, dir: Direction): (r: Sheet)
    ensures r.session == s.session
    ensures Settled(s) ==> Settled(r)
    ensures Valid(s) ==> Valid(r)
  {
    s.(position := Step(s.position, dir))
  }

  /** `handleBackdropClick` as a pure function: snap the position to the
      nearest snap point without touching the session. */
  function Settle(s: Sheet): (r: Sheet)
    ensures IsSnapPoint(r.position) && r.session == s.session
    ensures r.position == Nearest(s.position)
    ensures r.position == CLOSED <==> s.position <= 0.275
    ensures r.position == FULL <==> 0.75 < s.position
  {
    NearestClosedForm(s.position);
    s.(position := Nearest(s.position))
  }

  /** Settling twice is settling once; a settled idle sheet does not move. */
  lemma SettleIdempotent(s: Sheet)
    ensures Settle(Settle(s)) == Settle(s)
    ensures Settled(s) && s.session.Idle? ==> Settle(s) == s
  {
    NearestFixesSnapPoints(Nearest(s.position));
    if Settled(s) && s.session.Idle? {
      NearestFixesSnapPoints(s.position);
    }
  }

  /** Every handler keeps the position in [0, 1] and keeps idle sheets on a
      snap point. */
  lemma HandlersPreserveInvariant(s: Sheet, y: real, h: real, dir: Direction)
    requires h > 0.0
    requires Valid(s) && Settled(s)
    ensures Valid(Start(s, y)) && Settled(Start(s, y))
    ensures Valid(Move(s, y, h)) && Settled(Move(s, y, h))
    ensures Valid(End(s)) && Settled(End(s))
    ensures Valid(StepSheet(s, dir)) && Settled(StepSheet(s, dir))
    ensures Valid(Settle(s)) && Settled(Settle(s))
  {
  }

  /** While idle, moves and ends change nothing, however often repeated. */
  lemma IdleHandlersAreNoOps(s: Sheet, y: real, h: real)
    requires h > 0.0
    requires s.session.Idle?
    ensures Move(s, y, h) == s
    ensures End(s) == s
  {
  }

  /** A second consecutive end changes nothing. */
  lemma EndIdempotent(s: Sheet)
    ensures End(End(s)) == End(s)
  {
  }

  /** The live position depends only on what the start recorded, not on
      earlier moves: a move after a move equals the last move alone. */
  lemma MoveForgetsHistory(s: Sheet, y1: real, y2: real, h: real)
    requires h > 0.0
    ensures Move(Move(s, y1, h), y2, h) == Move(s, y2, h)
  {
  }

  /** Within a drag, a pointer farther down never yields a higher position. */
  lemma MoveMonotone(s: Sheet, y1: real, y2: real, h: real)
    requires h > 0.0
    requires s.session.Dragging?
    requires y1 <= y2
    ensures Move(s, y2, h).position <= Move(s, y1, h).position
  {
    LiveMonotone(s.session.base, s.session.startY, y1, y2, h);
  }

  /** A restart discards the earlier session: only the last start counts. */
  lemma RestartOverwrites(s: Sheet, y1: real, y2: real)
    ensures Start(Start(s, y1), y2) == Start(s, y2)
  {
  }

  /** A press released without moving leaves a resting sheet where it was;
      so does a press moved back to where it began. */
  lemma TapKeepsSnapPosition(s: Sheet, y: real, h: real)
    requires h > 0.0
    requires IsSnapPoint(s.position) && s.session.Idle?
    ensures End(Start(s, y)) == s
    ensures End(Move(Start(s, y), y, h)) == s
  {
    NearestFixesSnapPoints(s.position);
  }
}

=== FILE: keyboard.dfy ===
/**
 `useKeyboardNavigation`: while enabled, a window key-down listener maps four
 keys to optional callbacks. A callback is any value of type `A` (what the
 host wants done); an absent callback is `None`. The listener's effect on
 one key press is the callback it fires, if any, and whether it cancels the
 browser's default action.
 */
module Keyboard {
  import opened Wrappers

  datatype Bindings<A> = Bindings(
    onEscape: Option<A>,
    onArrowUp: Option<A>,
    onArrowDown: Option<A>,
    onOpen: Option<A>,
    enabled: Option<bool>)

  datatype KeyEffect<A> = KeyEffect(fired: Option<A>, preventDefault: bool)

  /** `enabled` defaults to true when the host omits it. */
  function Enabled<A>(b: Bindings<A>): (e: bool)
    ensures b.enabled.None? ==> e
    ensures b.enabled.Some? ==> e == b.enabled.value
  {
    match b.enabled
    case None => true
    case Some(e) => e
  }

  /** The keys the listener reacts to; the match is exact and case-sensitive. */
  predicate IsBoundKey(key: string) {
    key == "Escape" || key == "ArrowUp" || key == "ArrowDown" || key == "O"
  }

  /** The effect of one key press. Escape does not cancel the default
      action; the arrows and "O" cancel it even when no callback is bound. */
  function Dispatch<A>(b: Bindings<A>, key: string): (e: KeyEffect<A>)
    ensures !Enabled(b) || !IsBoundKey(key) ==> e == KeyEffect(None, false)
    ensures e.preventDefault <==> Enabled(b) && IsBoundKey(key) && key != "Escape"
    ensures e.fired.Some? ==> Enabled(b) && IsBoundKey(key)
  {
    if !Enabled(b) then KeyEffect(None, false)
    else if key == "Escape" then KeyEffect(b.onEscape, false)
    else if key == "ArrowUp" then KeyEffect(b.onArrowUp, true)
    else if key == "ArrowDown" then KeyEffect(b.onArrowDown, true)
    else if key == "O" then KeyEffect(b.onOpen, true)
    else KeyEffect(None, false)
  }

  /** Each bound key fires exactly its own callback, and nothing when that
      callback is absent. */
  lemma EachKeyFiresOnlyItsOwnCallback<A>(b: Bindings<A>)
    requires Enabled(b)
    ensures Dispatch(b, "Escape").fired == b.onEscape
    ensures Dispatch(b, "ArrowUp").fired == b.onArrowUp
    ensures Dispatch(b, "ArrowDown").fired == b.onArrowDown
    ensures Dispatch(b, "O").fired == b.onOpen
  {
  }

  /** Only upper-case "O" opens; lower-case "o" is an unbound key. */
  lemma OnlyUpperCaseOOpens<A>(b: Bindings<A>)
    ensures Dispatch(b, "o") == KeyEffect(None, false)
  {
    assert "o" != "O";
  }

  /** Omitting `enabled` is the same as passing true. */
  lemma EnabledByDefault<A>(b: Bindings<A>, key: string)
    requires b.enabled.None?
    ensures Dispatch(b, key) == Dispatch(b.(enabled := Some(true)), key)
  {
  }
}

=== FILE: snap_points.dfy ===
/**
 The fixed, ordered set of positions the sheet may rest at, the
 nearest-point reduction used when a drag is released, and the index-based
 stepper behind the sheet's arrow keys.
 */
module SnapPoints {

  const CLOSED: real := 0.05
  const HALF: real := 0.5
  const FULL: real := 1.0

  /** `Object.values(SNAP_POINTS)`, in declaration order. */
  const Points: seq<real> := [CLOSED, HALF, FULL]

  predicate IsSnapPoint(p: real) {
    p == CLOSED || p == HALF || p == FULL
  }

  function Abs(x: real): real {
    if x < 0.0 then -x else x
  }

  /** `Math.abs(a - p)`: how far candidate `a` lies from position `p`. */
  function Dist(a: real, p: real): real {
    Abs(a - p)
  }

  /** The snap points are distinct and listed in ascending order, so sorting
      them numerically leaves the list as it is. */
  lemma PointsAscending()
    ensures forall i, j :: 0 <= i < j < |Points| ==> Points[i] < Points[j]
    ensures forall p :: p in Points <==> IsSnapPoint(p)
  {
  }

  /**
   `s.reduce((prev, curr) => Dist(curr, p) < Dist(prev, p) ? curr : prev)`
   without an initial value: a left fold that starts from `s[0]` and only
   replaces the accumulator by a strictly closer element. The result is an
   element of `s`, no element is strictly closer, and every element before
   it is strictly farther (ties go to the earliest element).
   */
  function ReduceNearest(s: seq<real>, p: real): (r: real)
    requires |s| > 0
    ensures r in s
    ensures forall j :: 0 <= j < |s| ==> Dist(r, p) <= Dist(s[j], p)
    ensures exists k :: 0 <= k < |s| && s[k] == r &&
                        forall j :: 0 <= j < k ==> Dist(r, p) < Dist(s[j], p)
    decreases |s|
  {
    if |s| == 1 then
      // Supplies the witness k = 0 for the existential ensures.
      assert s[0] == s[0];
      s[0]
    else
      var init := s[..|s| - 1];
      var prev := ReduceNearest(init, p);
      var curr := s[|s| - 1];
      assert forall j :: 0 <= j < |init| ==> init[j] == s[j];
      if Dist(curr, p) < Dist(prev, p) then
        assert s[|s| - 1] == curr;
        curr
      else
        prev
  }

  /** `findNearestSnapPoint`: the snap point nearest to `p`. */
  function Nearest(p: real): (r: real)
    ensures IsSnapPoint(r)
    ensures forall q :: IsSnapPoint(q) ==> Dist(r, p) <= Dist(q, p)
  {
    PointsAscending();
    ReduceNearest(Points, p)
  }

  /** The reduction in closed form: the midpoints 0.275 and 0.75 between
      neighbouring snap points go to the lower neighbour, the earlier entry. */
  lemma NearestClosedForm(p: real)
    ensures Nearest(p) == CLOSED <==> p <= 0.275
    ensures Nearest(p) == HALF <==> 0.275 < p <= 0.75
    ensures Nearest(p) == FULL <==> 0.75 < p
  {
    var s := Points;
    assert s[..1] == [CLOSED];
    assert s[..2] == [CLOSED, HALF];
    assert s[..2][..1] == [CLOSED];
    var first := ReduceNearest(s[..1], p);
    assert first == CLOSED;
    var second := ReduceNearest(s[..2], p);
    assert second == (if Dist(HALF, p) < Dist(CLOSED, p) then HALF else CLOSED);
    assert second == HALF <==> 0.275 < p;
  }

  /** A snap point is its own nearest snap point. */
  lemma NearestFixesSnapPoints(p: real)
    requires IsSnapPoint(p)
    ensures Nearest(p) == p
  {
    NearestClosedForm(p);
  }

  /** `Array.prototype.findIndex` for equality: the first index holding `x`,
      or -1 when `x` does not occur. */
  function FindIndex(s: seq<real>, x: real): (i: int)
    ensures -1 <= i < |s|
    ensures i == -1 <==> x !in s
    ensures 0 <= i ==> s[i] == x && forall j :: 0 <= j < i ==> s[j] != x
    decreases |s|
  {
    if |s| == 0 then -1
    else if s[0] == x then 0
    else
      var k := FindIndex(s[1..], x);
      if k == -1 then -1 else k + 1
  }

  datatype Direction = Up | Down

  /**
   `handleSnapPoint` in the sheet: locate the position among the sorted snap
   points and move one index up or down when that index exists. A position
   that is not a snap point has index -1, so "up" lands on index 0 and
   "down" does nothing.
   */
  function Step(p: real, dir: Direction): (r: real)
    ensures IsSnapPoint(p) ==> IsSnapPoint(r)
    ensures !IsSnapPoint(p) ==> r == (if dir == Up then CLOSED else p)
    ensures dir == Up && IsSnapPoint(p) ==> p <= r
    ensures dir == Down ==> r <= p
  {
    PointsAscending();
    var i := FindIndex(Points, p);
    if dir == Up && i < |Points| - 1 then Points[i + 1]
    else if dir == Down && i > 0 then Points[i - 1]
    else p
  }

  /** From the snap point at index `i`, a step moves to the neighbouring
      index and stays put at either end: it never skips and never wraps. */
  lemma StepFromSnapPoint(i: int)
    requires 0 <= i < |Points|
    ensures Step(Points[i], Up) == Points[if i + 1 < |Points| then i + 1 else i]
    ensures Step(Points[i], Down) == Points[if i > 0 then i - 1 else i]
  {
    PointsAscending();
    var k := FindIndex(Points, Points[i]);
    assert k == i;
  }
}

=== FILE: swipe.dfy ===
/**
 The second drag component, BottomSwipe, at the level of its own React state
 and refs: the dragging flag, the base position (`dragPosition`), the start
 and last pointer coordinates, and the position it writes back. Stale values
 survive in the refs after a drag ends; the refinement lemmas below show
 they never matter, so its handlers behave exactly like the controller's.
 */
module Swipe {
  import opened SnapPoints
  import Controller

  datatype Refs = Refs(
    position: real,
    isDragging: bool,
    dragPosition: real,
    startY: real,
    currentY: real)

  /** Fresh component over a host position: not dragging, refs at their
      initial values (`dragPosition` FULL, coordinates 0). */
  function Mount(position: real): (r: Refs)
    ensures !r.isDragging && r.position == position
  {
    Refs(position, false, FULL, 0.0, 0.0)
  }

  /** What the refs mean: the session exists only while the flag is set. */
  function Abstract(r: Refs): Controller.Sheet {
    Controller.Sheet(
      r.position,
      if r.isDragging then Controller.Dragging(r.startY, r.dragPosition) else Controller.Idle)
  }

  /** `handleStart`: set the flag, record the coordinate in both coordinate
      refs and copy the current position into `dragPosition`, unconditionally. */
  function HandleStart(r: Refs, y: real): (r': Refs)
    ensures r'.isDragging && r'.startY == y && r'.currentY == y
    ensures r'.dragPosition == r.position && r'.position == r.position
  {
    r.(isDragging := true, startY := y, currentY := y, dragPosition := r.position)
  }

  /** `handleMove`: return early when not dragging; otherwise record the
      coordinate and write the clamped position. */
  function HandleMove(r: Refs, y: real, h: real): (r': Refs)
    requires h > 0.0
    ensures !r.isDragging ==> r' == r
    ensures r'.isDragging == r.isDragging && r'.dragPosition == r.dragPosition && r'.startY == r.startY
    ensures r.isDragging ==> 0.0 <= r'.position <= 1.0 && r'.currentY == y
    ensures r.isDragging ==> r'.position == Controller.Live(r.dragPosition, r.startY, y, h)
  {
    if !r.isDragging then r
    else
      var delta := (y - r.startY) / h;
      var newPosition := Controller.Max(0.0, Controller.Min(1.0, r.dragPosition - delta));
      r.(currentY := y, position := newPosition)
  }

  /** `handleEnd`: return early when not dragging; otherwise clear the flag
      and write the nearest snap point. */
  function HandleEnd(r: Refs): (r': Refs)
    ensures !r.isDragging ==> r' == r
    ensures !r'.isDragging
    ensures r.isDragging ==> IsSnapPoint(r'.position)
    ensures r.isDragging ==> r'.position == Nearest(r.position)
    ensures r.isDragging ==>
              && (r'.position == CLOSED <==> r.position <= 0.275)
              && (r'.position == FULL <==> 0.75 < r.position)
  {
    NearestClosedForm(r.position);
    if !r.isDragging then r
    else r.(isDragging := false, position := Nearest(r.position))
  }

  /** A freshly mounted component is an idle controller. */
  lemma MountIsIdle(position: real)
    ensures Abstract(Mount(position)) == Controller.Sheet(position, Controller.Idle)
  {
  }

  /** Each handler, seen through `Abstract`, is the controller's handler:
      the two components implement the same drag state machine. */
  lemma HandlersRefineController(r: Refs, y: real, h: real)
    requires h > 0.0
    ensures Abstract(HandleStart(r, y)) == Controller.Start(Abstract(r), y)
    ensures Abstract(HandleMove(r, y, h)) == Controller.Move(Abstract(r), y, h)
    ensures Abstract(HandleEnd(r)) == Controller.End(Abstract(r))
  {
  }

  /** Moving the pointer down never yields a higher position than moving it
      less far. */
  lemma MoveMonotone(r: Refs, y1: real, y2: real, h: real)
    requires h > 0.0 && r.isDragging && y1 <= y2
    ensures HandleMove(r, y2, h).position <= HandleMove(r, y1, h).position
  {
    HandlersRefineController(r, y1, h);
    HandlersRefineController(r, y2, h);
    Controller.MoveMonotone(Abstract(r), y1, y2, h);
  }

  /** Start immediately followed by end, from a snap position, leaves the
      position unchanged. */
  lemma StartEndKeepsSnapPosition(r: Refs, y: real)
    requires IsSnapPoint(r.position)
    ensures HandleEnd(HandleStart(r, y)).position == r.position
    ensures !HandleEnd(HandleStart(r, y)).isDragging
  {
    NearestFixesSnapPoints(r.position);
  }
}

=== FILE: wrappers.dfy ===
/** A value that may be missing, such as a callback the host did not pass
    or a key press that fires no callback. */
module Wrappers {

  datatype Option<T> = None | Some(value: T)
}
